=== FILE: README.md ===
# File Magician: FFmpeg service model

A Dafny model of `services/ffmpeg.service.ts` from the File Magician web
application. The service wraps one in-browser FFmpeg engine and offers three
things:

- `getPossibleExtensions(fileType)`: the conversion targets offered for a
  source extension, drawn from three fixed families (8 video, 7 audio and
  7 image extensions).
- `loadFFmpeg()`: creates the module-wide engine once and loads it.
- `loadFile(file)`: probes a file by running `ffmpeg -i <name>` and listening
  to the engine's log. The first line matching `/Stream #\d+:\d+.*: (\w+),/i`
  gives the codec, lower-cased.

The modules follow the service:

- `Catalog` (`catalog.dfy`) holds the extension families and
  `PossibleExtensions`.
- `Text` (`text.dfy`) holds the character classes of JavaScript regular
  expressions, `toLowerCase` and greedy runs.
- `CodecLog` (`codec.dfy`) describes the codec pattern twice:
  - as a predicate `IsMatch` with JavaScript's choice among matches
    (`Outranks`: leftmost start, then greedy quantifiers in pattern order);
  - as a direct search, `ExtractCodec`, whose contract ties it to the
    predicate.
- `Engine` (`engine.dfy`) holds the engine handle, `loadFFmpeg`, and the
  `loadFile` probe. The probe is modelled as a fold of the `onLog` listener
  over the lines the engine logs, followed by how `exec` ends. Each run
  records the calls the service makes on the engine.
- `CatalogExamples` and `CodecExamples` work through concrete inputs:
  - the example log line quoted in the source, which yields `png`;
  - a typical H.264 stream line, `Stream #0:0: Video: h264 (High), yuv420p`,
    which yields nothing, because the pattern needs a comma right after the
    codec name.

The engine's behaviour is given to the model as parameters:

- whether `load` succeeds;
- whether fetching the file's bytes succeeds;
- whether the file write succeeds;
- which log lines `exec` emits;
- whether `exec` returns or throws.

Two behaviours of the code worth stating:

- A probe whose `exec` throws before any line matched rejects `loadFile`'s
  promise with the engine's error (`reject(err)`). It is not treated as "no
  format detected".
- `loadFile` before `loadFFmpeg` resolves with `null` and makes no engine
  call. It does not fail with an error.

## Model

| member | source | states |
|---|---|---|
| Catalog.PossibleExtensions | services/ffmpeg.service.ts:62-78 | the source's own (lower-cased) extension is never offered, and every target offered is one of the catalogue's formats |
| Catalog.KnownSourceTargets | services/ffmpeg.service.ts:63-75 | a source in a family is offered exactly the rest of that family, in declared order, one fewer than the family's size, and nothing from another family |
| Catalog.UnknownSourceTargets | services/ffmpeg.service.ts:77 | a source in no family is offered video, audio and image formats end to end, 22 in all |
| Catalog.CaseInsensitive | services/ffmpeg.service.ts:63 | the answer depends on the source extension only through its lower-case form |
| Catalog.TargetsDistinct | services/ffmpeg.service.ts:62-78 | no target is offered twice |
| Catalog.FamiliesDuplicateFree | services/ffmpeg.service.ts:5-7 | no family repeats an extension, nor does the combined list |
| Catalog.FamiliesDisjoint | services/ffmpeg.service.ts:5-7 | no extension belongs to two families, so the order of the family tests cannot change the answer |
| Catalog.EverythingIsTheFamilies | services/ffmpeg.service.ts:77 | an extension is in the fallback list exactly when it is in some family |
| Catalog.Without | services/ffmpeg.service.ts:66 | filtering keeps exactly the elements other than the removed one, and changes nothing when that one is absent |
| Catalog.WithoutCounts | services/ffmpeg.service.ts:66 | filtering keeps each other element exactly as many times as it occurs and drops every occurrence of the removed one, so the result is shorter by that element's count |
| Catalog.WithoutAt | services/ffmpeg.service.ts:66 | in a list without duplicates, filtering out the element at position i is the list with position i cut out |
| CatalogExamples.MovTargets | services/ffmpeg.service.ts:62-67 | `MOV` is offered mp4, avi, mkv, flv, webm, wmv, mpeg, in that order |
| CatalogExamples.TxtTargets | services/ffmpeg.service.ts:77 | `txt` is offered the whole 22-entry fallback list |
| Text.Lower | services/ffmpeg.service.ts:42 | `toLowerCase` (here and on line 63) keeps the length and lower-cases each character on its own: `A`-`Z` become `a`-`z`, the Kelvin sign becomes `k`, every other character stays |
| Text.LowerIdempotent | services/ffmpeg.service.ts:63 | lower-casing an already lower-cased string changes nothing |
| Text.LowerIsLower | services/ffmpeg.service.ts:42 | the result of lower-casing has no upper-case ASCII letter and no Kelvin sign left |
| Text.Run | services/ffmpeg.service.ts:38 | a greedy run of a character class ends at the string's end or at the first character outside the class |
| Text.RunCovers | services/ffmpeg.service.ts:38 | any run of class characters from a position is no longer than the greedy run |
| Text.RunStops | services/ffmpeg.service.ts:38 | the greedy run never passes a character outside the class |
| CodecLog.Capture | services/ffmpeg.service.ts:41 | the captured codec group is non-empty and made of word characters |
| CodecLog.CodecLenAt | services/ffmpeg.service.ts:38 | `: (\w+),` matches at a position for at most one word length, and this function finds it |
| CodecLog.LastSep | services/ffmpeg.service.ts:38 | the stopping point found for greedy `.*` is the last position in range where the tail matches |
| CodecLog.MatchShape | services/ffmpeg.service.ts:38 | in every match the first `\d+` takes the whole digit run, the second takes at most its run, and `.*` stays inside one line |
| CodecLog.MatchAtSound | services/ffmpeg.service.ts:38 | what the greedy attempt at a position returns is a match of the pattern starting there |
| CodecLog.MatchAtBest | services/ffmpeg.service.ts:38-39 | if the pattern matches at a position at all, the greedy attempt there finds the match JavaScript's backtracking reports first |
| CodecLog.FindMatch | services/ffmpeg.service.ts:38-39 | the search returns a match that outranks every other match from its starting point, and returns nothing only when no match starts there or later |
| CodecLog.ExtractCodec | services/ffmpeg.service.ts:38-42 | a codec is extracted exactly when the line matches; it is the lower-cased group of the reported match, non-empty, lower-case and made of word characters |
| CodecLog.ReportedAtLastColon | services/ffmpeg.service.ts:38-42 | a match at the line's start, taking the whole digit runs and using the line's last colon, is the one whose word becomes the codec |
| CodecLog.NoCodecWithoutWordComma | services/ffmpeg.service.ts:38 | a line where no comma directly follows a word character yields no codec |
| CodecExamples.PngLineCodec | services/ffmpeg.service.ts:37-42 | the example line quoted beside the listener yields the codec `png` |
| CodecExamples.ProfileLineCodec | services/ffmpeg.service.ts:38-41 | a stream line whose codec name is followed by a parenthesised profile yields no codec |
| Engine.LoadFFmpeg | services/ffmpeg.service.ts:11-17 | a set handle is left alone with no engine call; an unset one is set after exactly one construction and one load, and the promise resolves exactly when the load succeeds |
| Engine.LoadIdempotent | services/ffmpeg.service.ts:12 | a second call changes nothing and makes no engine call, whatever its own load would do |
| Engine.LoadManyConstructsOnce | services/ffmpeg.service.ts:11-17 | over any number of sequential calls the engine is constructed and loaded at most once, and the handle keeps the first load's outcome, so a failed load is never retried |
| Engine.FailedLoadNeverRetried | services/ffmpeg.service.ts:12-16 | as written, a failed first load followed by a call whose load would succeed leaves the engine unloaded, and the second call makes no engine call |
| Engine.LoadFFmpegRetrying | services/ffmpeg.service.ts:12 | the corrected `loadFFmpeg`: returns early only on a loaded engine, otherwise constructs and loads once, and never leaves a handle whose load failed |
| Engine.RetryingLoadsUntilSuccess | services/ffmpeg.service.ts:11-17 | with the correction, a sequence of calls leaves the engine loaded exactly when it was loaded already or some load succeeded, and otherwise leaves the handle `null`; from a `null` handle, every call up to and including the first successful load constructs and loads once, and later calls make no engine call |
| Engine.RetryingRecoversFromFailedLoad | services/ffmpeg.service.ts:11-17 | with the correction, a failed load followed by a successful one leaves the engine loaded |
| Engine.Settle | services/ffmpeg.service.ts:44-57 | a pending promise takes the first `resolve` or `reject` it receives; a settled one ignores every later call, as the calls on lines 54 and 57 after line 44 are ignored |
| Engine.OnLog | services/ffmpeg.service.ts:36-46 | a line without a codec, or a removed listener, changes nothing; a codec removes the listener and settles the promise with it |
| Engine.Finish | services/ffmpeg.service.ts:50-58 | after `exec` the listener is removed; a still pending promise resolves with null when `exec` returned and rejects with its error when it threw, and an already settled promise keeps its value |
| Engine.LoadFile | services/ffmpeg.service.ts:19-59 | with no engine: resolves with null and makes no engine call. A failed fetch of the file's bytes rejects with no engine call; a failed file write rejects after that one `writeFile` call. Otherwise the file is written, the listener registered once, `-i <name>` run, and the listener is removed and the promise settled on every exit path (when `exec` returns or throws) |
| Engine.RunProbe | services/ffmpeg.service.ts:30-59 | the promise executor: registers the listener, starts `exec -i <name>`, then makes only `off` calls, and once `exec` has returned or thrown the listener is gone and the promise has settled |
| Engine.ProbeCalls | services/ffmpeg.service.ts:48-58 | a probe registers the listener, runs `-i <name>`, then only removes the listener, ending with a removal |
| Engine.FeedAddsOnlyOffs | services/ffmpeg.service.ts:43 | delivering log lines adds no engine call other than listener removals |
| Engine.FeedKeepsListening | services/ffmpeg.service.ts:36-48 | while the log is delivered, the listener is registered exactly as long as the promise is pending |
| Engine.FeedAfterRemoval | services/ffmpeg.service.ts:43 | once the listener is removed, further log lines change nothing |
| Engine.FeedSilent | services/ffmpeg.service.ts:41 | lines without a codec leave the probe as it was |
| Engine.FeedFirstFound | services/ffmpeg.service.ts:41-45 | the first line with a codec settles the promise with that codec and removes the listener |
| Engine.FirstMatchWins | services/ffmpeg.service.ts:36-59 | the probe resolves with the codec of the first line that has one, whatever follows and however `exec` ends |
| Engine.NoMatchFallsThrough | services/ffmpeg.service.ts:50-58 | with no codec in the log, the probe resolves with null when `exec` returns and rejects with its error when `exec` throws |
| Engine.LaterLinesIgnored | services/ffmpeg.service.ts:43-44 | appending lines after a detected codec does not change the outcome |
| Engine.LoadFileOutcome | services/ffmpeg.service.ts:19-59 | with an engine and a successful fetch and write, `loadFile` settles with the first detected codec, or else with null or the `exec` error |

## Findings

| source | as written | input that shows it | evidently intended | confidence | as-written member | corrected member |
|---|---|---|---|---|---|---|
| services/ffmpeg.service.ts:12-16 | the handle is assigned before `load()` is awaited, and the early return tests only that the handle is non-null | a first `loadFFmpeg()` whose load rejects (say the engine's core cannot be fetched), then a second call: it returns at once, and `loadFile` goes on to write to an engine that never loaded | return early only when the engine is loaded (the comment says "already loaded"), and clear the handle when the load fails so that the next call retries | medium, not executed | Engine.FailedLoadNeverRetried | Engine.RetryingLoadsUntilSuccess |

`Engine.LoadFile` takes the handle as a parameter, so it applies to handles
produced by either version. The retrying version only ever produces a `null`
handle or a loaded one.

## Left out

- The engine itself, `fetchFile` and the file's bytes are outside the model. Their outcomes are parameters: load success, fetch success, write success, the emitted log lines, and how `exec` ends. Engine errors are represented by their message.
- `console.warn` (lines 21 and 32) has no effect the model can observe.
- The second `!ffmpeg` test inside the promise (lines 31-34) is not modelled. Nothing ever resets the handle to `null`, so after the test on line 20 it cannot succeed.
- Concurrency is left out; calls are modelled one after another. Two things follow from the code but are not modelled:
  - A second `loadFFmpeg` made while the first is still loading returns at once, before the engine is loaded.
  - Probes that overlap share one log stream.
- The model delivers all log lines before `exec` settles. This matches an engine that emits its log while the command runs.
- Engine.LoadFile: every engine call (`load`, `writeFile`, `exec`) and `fetchFile` is assumed to settle; nothing in the service times them out. If `exec` never settles and no log line carried a codec, the source's promise stays pending forever and its `onLog` listener stays registered; the model cannot express that run. Likewise a `load` or `fetchFile`/`writeFile` that never settles leaves `loadFFmpeg` or `loadFile` pending.
- Engine.LoadFile: the result covers the promise's state and the engine calls. The order in which JavaScript runs promise callbacks is not modelled.
- Text.Lower: lower-cases `A`-`Z` and maps the Kelvin sign to `k`; every other character is left unchanged. JavaScript changes other characters too, but none of them becomes pure ASCII. So membership in the families, and the lower-cased codec (which is made of word characters only), come out exactly as in JavaScript.
- CodecLog.ExtractCodec: characters are Unicode scalar values, whereas JavaScript strings are UTF-16 code units. The pattern's `.` would treat a character outside the Basic Multilingual Plane as two units. This does not change which lines match or the codec found, since every literal and class in the pattern is ASCII or a line terminator.
- `FileModel` fields other than `name` (`nameTruncated`, `sizeBytes`, `converted`, `converting`, `convertProgress`, `targetType`) are carried but not used by the service's core. `sizeBytes` and `convertProgress` are JavaScript numbers, modelled as integers.
- Conversion and export are not part of `services/ffmpeg.service.ts`; models/file.model.ts is only used for the shape of `FileModel`.

=== FILE: catalog.dfy ===
/**
  The format catalogue of `services/ffmpeg.service.ts`: three fixed families
  of extensions and `getPossibleExtensions`, which offers the conversion
  targets for a source extension.
 */
module Catalog {
  import opened Text

  const Video: seq<string> := ["mp4", "avi", "mov", "mkv", "flv", "webm", "wmv", "mpeg"]
  const Audio: seq<string> := ["mp3", "aac", "wav", "flac", "ogg", "m4a", "wma"]
  const Image: seq<string> := ["jpeg", "jpg", "png", "gif", "bmp", "tiff", "webp"]

  /** What an unknown source is offered: every family, in the order video, audio, image. */
  const Everything: seq<string> := Video + Audio + Image

  datatype Family = VideoFamily | AudioFamily | ImageFamily

  function Members(f: Family): seq<string> {
    match f
    case VideoFamily => Video
    case AudioFamily => Audio
    case ImageFamily => Image
  }

  predicate NoDuplicates<T(==)>(xs: seq<T>) {
    forall i, j :: 0 <= i < j < |xs| ==> xs[i] != xs[j]
  }

  /** `xs.filter((x) => x != e)`: every element other than `e`, in order. */
  function Without<T(==)>(xs: seq<T>, e: T): (r: seq<T>)
    ensures |r| <= |xs|
    ensures forall y :: y in r ==> y in xs && y != e
    ensures forall y :: y in xs && y != e ==> y in r
    ensures e !in xs ==> r == xs
  {
    if xs == [] then []
    else if xs[0] != e then [xs[0]] + Without(xs[1..], e)
    else Without(xs[1..], e)
  }

  /** Filtering keeps every other element as many times as it occurs, and
      drops every occurrence of `e`. */
  lemma {:induction false} WithoutCounts<T>(xs: seq<T>, e: T)
    ensures multiset(Without(xs, e)) == multiset(xs)[e := 0]
    ensures |Without(xs, e)| == |xs| - multiset(xs)[e]
    decreases |xs|
  {
    if xs != [] {
      WithoutCounts(xs[1..], e);
      assert xs == [xs[0]] + xs[1..];
    }
  }

  /** In a list without duplicates, filtering out the element at `i` is the
      list with position `i` cut out: the order of the rest is kept and
      exactly one element goes. */
  lemma {:induction false} WithoutAt<T>(xs: seq<T>, i: nat)
    requires NoDuplicates(xs)
    requires i < |xs|
    ensures Without(xs, xs[i]) == xs[..i] + xs[i + 1..]
    ensures |Without(xs, xs[i])| == |xs| - 1
  {
    var tail := xs[1..];
    if i == 0 {
      HeadNotInTail(xs);
      assert Without(xs, xs[0]) == Without(tail, xs[0]);
    } else {
      TailNoDuplicates(xs);
      assert tail[i - 1] == xs[i];
      WithoutAt(tail, i - 1);
      ConsCut(xs, i);
    }
  }

  /** Putting the head back in front of the tail with a position cut out is
      the whole list with the matching position cut out. */
  lemma ConsCut<T>(xs: seq<T>, i: nat)
    requires 0 < i < |xs|
    ensures [xs[0]] + (xs[1..][..i - 1] + xs[1..][i..]) == xs[..i] + xs[i + 1..]
  {
    assert [xs[0]] + xs[1..][..i - 1] == xs[..i];
    assert xs[1..][i..] == xs[i + 1..];
  }

  lemma HeadNotInTail<T>(xs: seq<T>)
    requires NoDuplicates(xs) && xs != []
    ensures xs[0] !in xs[1..]
  {
    var tail := xs[1..];
    forall k | 0 <= k < |tail|
      ensures tail[k] != xs[0]
    {
      assert tail[k] == xs[k + 1];
    }
  }

  lemma TailNoDuplicates<T>(xs: seq<T>)
    requires NoDuplicates(xs) && xs != []
    ensures NoDuplicates(xs[1..])
  {
    var tail := xs[1..];
    forall a, b | 0 <= a < b < |tail|
      ensures tail[a] != tail[b]
    {
      assert tail[a] == xs[a + 1] && tail[b] == xs[b + 1];
    }
  }

  /** `getPossibleExtensions(fileType)`. */
  function PossibleExtensions(fileType: string): (r: seq<string>)
    ensures Lower(fileType) !in r
    ensures forall x :: x in r ==> x in Everything
  {
    var t := Lower(fileType);
    if t in Video then Without(Video, t)
    else if t in Audio then Without(Audio, t)
    else if t in Image then Without(Image, t)
    else Everything
  }

  /** Each family, and the fallback list, is free of duplicates. */
  lemma FamiliesDuplicateFree()
    ensures forall f :: NoDuplicates(Members(f))
    ensures NoDuplicates(Everything)
  {
  }

  /** No extension belongs to two families. */
  lemma FamiliesDisjoint()
    ensures forall f, g, x :: f != g && x in Members(f) ==> x !in Members(g)
  {
  }

  /** The fallback list is the three families, end to end. */
  lemma EverythingIsTheFamilies(x: string)
    ensures x in Everything <==> exists f :: x in Members(f)
  {
    if x in Everything {
      assert x in Members(VideoFamily) || x in Members(AudioFamily) || x in Members(ImageFamily);
    }
  }

  /** A source in a family is offered exactly the rest of its family, in the
      family's declared order. */
  lemma {:induction false} KnownSourceTargets(fileType: string, f: Family, i: nat)
    requires i < |Members(f)| && Members(f)[i] == Lower(fileType)
    ensures PossibleExtensions(fileType) == Members(f)[..i] + Members(f)[i + 1..]
    ensures |PossibleExtensions(fileType)| == |Members(f)| - 1
    ensures forall x :: x in PossibleExtensions(fileType) ==> x in Members(f)
  {
    var t := Lower(fileType);
    var m := Members(f);
    assert t in m;
    FamiliesDisjoint();
    FamiliesDuplicateFree();
    match f {
      case VideoFamily =>
      case AudioFamily =>
        assert t !in Video;
      case ImageFamily =>
        assert t !in Video && t !in Audio;
    }
    assert PossibleExtensions(fileType) == Without(m, t);
    WithoutAt(m, i);
  }

  /** A source in no family is offered everything: 8 + 7 + 7 = 22 targets. */
  lemma UnknownSourceTargets(fileType: string)
    requires forall f :: Lower(fileType) !in Members(f)
    ensures PossibleExtensions(fileType) == Video + Audio + Image
    ensures |PossibleExtensions(fileType)| == 22
  {
    assert Lower(fileType) !in Members(VideoFamily);
    assert Lower(fileType) !in Members(AudioFamily);
    assert Lower(fileType) !in Members(ImageFamily);
  }

  /** The answer depends on the source only through its lower-case form. */
  lemma CaseInsensitive(fileType: string)
    ensures PossibleExtensions(fileType) == PossibleExtensions(Lower(fileType))
  {
    LowerIdempotent(fileType);
  }

  /** No target is offered twice. */
  lemma TargetsDistinct(fileType: string)
    ensures NoDuplicates(PossibleExtensions(fileType))
  {
    FamiliesDuplicateFree();
    var t := Lower(fileType);
    if f :| t in Members(f) {
      var i :| 0 <= i < |Members(f)| && Members(f)[i] == t;
      KnownSourceTargets(fileType, f, i);
      CutPreservesNoDuplicates(Members(f), i);
    } else {
      UnknownSourceTargets(fileType);
    }
  }

  lemma CutPreservesNoDuplicates<T>(xs: seq<T>, i: nat)
    requires NoDuplicates(xs) && i < |xs|
    ensures NoDuplicates(xs[..i] + xs[i + 1..])
  {
    var r := xs[..i] + xs[i + 1..];
    forall a, b | 0 <= a < b < |r|
      ensures r[a] != r[b]
    {
      var a' := if a < i then a else a + 1;
      var b' := if b < i then b else b + 1;
      assert r[a] == xs[a'] && r[b] == xs[b'];
    }
  }
}

=== FILE: catalog_examples.dfy ===
/** Concrete answers of `getPossibleExtensions`. */
module CatalogExamples {
  import opened Text
  import opened Catalog

  lemma LowerMov()
    ensures Lower("MOV") == "mov"
  {
  }

  /** An upper-case video source is offered the other seven video formats,
      in their declared order. */
  lemma MovTargets()
    ensures PossibleExtensions("MOV") == ["mp4", "avi", "mkv", "flv", "webm", "wmv", "mpeg"]
  {
    LowerMov();
    KnownSourceTargets("MOV", VideoFamily, 2);
    VideoWithoutMov();
  }

  lemma VideoWithoutMov()
    ensures Video[..2] + Video[3..] == ["mp4", "avi", "mkv", "flv", "webm", "wmv", "mpeg"]
  {
    assert Video[..2] == ["mp4", "avi"];
    assert Video[3..] == ["mkv", "flv", "webm", "wmv", "mpeg"];
  }

  /** An extension outside every family gets the full list. */
  lemma TxtTargets()
    ensures PossibleExtensions("txt") == Everything
    ensures |PossibleExtensions("txt")| == 22
  {
    LowerOfLower("txt");
    assert "txt" !in Video && "txt" !in Audio && "txt" !in Image;
    UnknownSourceTargets("txt");
  }
}

=== FILE: codec.dfy ===
/**
  The codec pattern of the `onLog` listener in `services/ffmpeg.service.ts`:
  `message.match(/Stream #\d+:\d+.*: (\w+),/i)`, followed by lower-casing the
  first capture group.

  The pattern is described twice. `IsMatch` says what a match is: the start
  position and how many characters each part of the pattern takes. `Outranks`
  says which match JavaScript reports when there are several: the leftmost
  start, and at that start the one its backtracking tries first, which is
  the one whose quantifiers take the most, compared in pattern order.
  `FindMatch` is a direct search, and its contract ties it to the two.
 */
module CodecLog {
  import opened Wrappers
  import opened Text

  /** The literal head of the pattern, compared ignoring case. The `i` flag
      without the `u` flag folds ASCII letters only; `LowerChar` also maps
      the Kelvin sign to `k`, but `Head` has no `k`, so the comparison is
      the same. */
  const Head: string := "stream #"

  predicate HeadAt(s: string, p: nat) {
    p + |Head| <= |s| && forall k :: 0 <= k < |Head| ==> LowerChar(s[p + k]) == Head[k]
  }

  /** `n` digits (at least one) at position `i`. */
  predicate DigitsAt(s: string, i: nat, n: nat) {
    n >= 1 && i + n <= |s| && forall k :: i <= k < i + n ==> IsDigit(s[k])
  }

  /** `: (\w+),` at position `t`, the word being `w` characters long. */
  predicate TailAt(s: string, t: nat, w: nat) {
    && w >= 1
    && t + 2 + w < |s|
    && s[t] == ':' && s[t + 1] == ' '
    && (forall k :: t + 2 <= k < t + 2 + w ==> IsWordChar(s[k]))
    && s[t + 2 + w] == ','
  }

  /** One way of matching the pattern: where it starts, how many digits the
      two `\d+` take, where `.*` stops (the position of the `:` that follows
      it), and how many characters `(\w+)` takes. */
  datatype Match = Match(start: nat, inputDigits: nat, streamDigits: nat, sepAt: nat, codecLen: nat)
  {
    function InputAt(): nat { start + |Head| }
    function ColonAt(): nat { InputAt() + inputDigits }
    function StreamAt(): nat { ColonAt() + 1 }
    /** Where `.*` begins. */
    function AnyAt(): nat { StreamAt() + streamDigits }
    function CodecAt(): nat { sepAt + 2 }
    function CommaAt(): nat { CodecAt() + codecLen }
  }

  predicate IsMatch(s: string, m: Match) {
    && HeadAt(s, m.start)
    && DigitsAt(s, m.InputAt(), m.inputDigits)
    && m.ColonAt() < |s| && s[m.ColonAt()] == ':'
    && DigitsAt(s, m.StreamAt(), m.streamDigits)
    && m.AnyAt() <= m.sepAt
    && (forall k :: m.AnyAt() <= k < m.sepAt ==> k < |s| && IsLineChar(s[k]))
    && TailAt(s, m.sepAt, m.codecLen)
  }

  /** The text of the capture group. */
  function Capture(s: string, m: Match): (c: string)
    requires IsMatch(s, m)
    ensures |c| == m.codecLen >= 1
    ensures forall k :: 0 <= k < |c| ==> IsWordChar(c[k])
  {
    assert TailAt(s, m.sepAt, m.codecLen);
    assert m.CommaAt() < |s|;
    s[m.CodecAt()..m.CommaAt()]
  }

  /** `m` is reported in preference to `o`: it starts further left, or at the
      same start its greedy quantifiers take more, compared in the order
      they occur in the pattern. */
  predicate Outranks(m: Match, o: Match) {
    || m.start < o.start
    || (m.start == o.start && m.inputDigits > o.inputDigits)
    || (m.start == o.start && m.inputDigits == o.inputDigits && m.streamDigits > o.streamDigits)
    || (m.start == o.start && m.inputDigits == o.inputDigits && m.streamDigits == o.streamDigits
        && m.sepAt > o.sepAt)
    || (m.start == o.start && m.inputDigits == o.inputDigits && m.streamDigits == o.streamDigits
        && m.sepAt == o.sepAt && m.codecLen > o.codecLen)
  }

  /** The match `String.prototype.match` returns for `s`. */
  ghost predicate IsReported(s: string, m: Match) {
    IsMatch(s, m) && forall o :: IsMatch(s, o) && o != m ==> Outranks(m, o)
  }

  /** The length of the word of `: (\w+),` at `t`, if the tail matches there. */
  function CodecLenAt(s: string, t: nat): (r: Option<nat>)
    ensures r.Some? ==> TailAt(s, t, r.value)
    ensures forall w: nat :: TailAt(s, t, w) ==> r == Some(w)
  {
    if t + 2 <= |s| && s[t] == ':' && s[t + 1] == ' ' then
      var w := Run(s, t + 2, Word);
      if w >= 1 && t + 2 + w < |s| && s[t + 2 + w] == ',' then Some(w) else None
    else None
  }

  /** The last position in `[lo, hi)` where the tail matches: what greedy
      `.*` settles on. */
  function LastSep(s: string, lo: nat, hi: nat): (r: Option<nat>)
    ensures r.Some? ==> lo <= r.value < hi && CodecLenAt(s, r.value).Some?
    ensures forall t :: lo <= t < hi && CodecLenAt(s, t).Some? ==> r.Some? && t <= r.value
    decreases hi
  {
    if hi <= lo then None
    else if CodecLenAt(s, hi - 1).Some? then Some(hi - 1)
    else LastSep(s, lo, hi - 1)
  }

  /** Every match shares its shape with the greedy one: the first `\d+` takes
      the whole digit run, the second takes at most the whole run, and if it
      does, `.*` stops inside the line at a position where the tail matches. */
  lemma MatchShape(s: string, o: Match)
    requires IsMatch(s, o)
    ensures o.inputDigits == Run(s, o.InputAt(), Digit)
    ensures o.streamDigits <= Run(s, o.StreamAt(), Digit)
    ensures var q := o.StreamAt() + Run(s, o.StreamAt(), Digit);
            q <= o.sepAt < q + Run(s, q, LineChar)
    ensures CodecLenAt(s, o.sepAt) == Some(o.codecLen)
  {
    var a := o.InputAt();
    RunCovers(s, a, Digit, o.inputDigits);
    RunStops(s, a, Digit, o.inputDigits);
    var c := o.StreamAt();
    RunCovers(s, c, Digit, o.streamDigits);
    assert TailAt(s, o.sepAt, o.codecLen);
    RunStops(s, c, Digit, o.sepAt - c);
    var q := c + Run(s, c, Digit);
    RunCovers(s, q, LineChar, o.sepAt - q + 1);
  }

  /** `MatchShape`'s bound on where `.*` stops, for a given start `q` of
      the `.*` run. */
  lemma SepInGreedyRun(s: string, o: Match, q: nat)
    requires IsMatch(s, o)
    requires q == o.StreamAt() + Run(s, o.StreamAt(), Digit)
    ensures q <= |s| && q <= o.sepAt < q + Run(s, q, LineChar)
  {
    MatchShape(s, o);
  }

  /** The greedy `Stream #\d+:\d+` at `p`: how many digits each `\d+` takes. */
  function DigitsAfterHead(s: string, p: nat): (r: Option<(nat, nat)>)
    ensures r.Some? ==>
      && HeadAt(s, p)
      && DigitsAt(s, p + |Head|, r.value.0)
      && p + |Head| + r.value.0 < |s| && s[p + |Head| + r.value.0] == ':'
      && DigitsAt(s, p + |Head| + r.value.0 + 1, r.value.1)
  {
    if !HeadAt(s, p) then None
    else
      var a := p + |Head|;
      var n1 := Run(s, a, Digit);
      if n1 == 0 || a + n1 >= |s| || s[a + n1] != ':' then None
      else
        var n2 := Run(s, a + n1 + 1, Digit);
        if n2 == 0 then None else Some((n1, n2))
  }

  /** Where greedy `.*` stops when both `\d+` take their whole runs. */
  function GreedySep(s: string, p: nat, n1: nat, n2: nat): Option<nat> {
    var q := p + |Head| + n1 + 1 + n2;
    if q <= |s| then LastSep(s, q, q + Run(s, q, LineChar)) else None
  }

  /** The greedy attempt at one start position. */
  function MatchAt(s: string, p: nat): Option<Match>
  {
    match DigitsAfterHead(s, p)
    case None => None
    case Some((n1, n2)) =>
      match GreedySep(s, p, n1, n2)
      case None => None
      case Some(t) => Some(Match(p, n1, n2, t, CodecLenAt(s, t).value))
  }

  /** What the greedy attempt returns is a match at `p`. */
  lemma MatchAtSound(s: string, p: nat)
    ensures MatchAt(s, p).Some? ==> MatchAt(s, p).value.start == p && IsMatch(s, MatchAt(s, p).value)
  {
  }

  /** Greedy `.*` stops no earlier than any position in its run where the
      tail matches. */
  lemma GreedySepCovers(s: string, o: Match, n2: nat, q: nat)
    requires q == o.StreamAt() + n2 && q <= |s| && q <= o.sepAt < q + Run(s, q, LineChar)
    requires CodecLenAt(s, o.sepAt).Some?
    ensures var g := GreedySep(s, o.start, o.inputDigits, n2); g.Some? && o.sepAt <= g.value
  {
  }

  lemma GreedyDigits(s: string, o: Match)
    requires IsMatch(s, o)
    requires o.inputDigits == Run(s, o.InputAt(), Digit)
    ensures DigitsAfterHead(s, o.start) == Some((o.inputDigits, Run(s, o.StreamAt(), Digit)))
  {
  }

  /** The greedy attempt, given its choices, outranks or equals `o`. */
  lemma GreedyWins(s: string, o: Match, n2: nat, t: nat)
    requires DigitsAfterHead(s, o.start) == Some((o.inputDigits, n2))
    requires o.streamDigits <= n2
    requires GreedySep(s, o.start, o.inputDigits, n2) == Some(t)
    requires o.sepAt <= t
    requires CodecLenAt(s, o.sepAt) == Some(o.codecLen)
    ensures MatchAt(s, o.start).Some?
    ensures var m := MatchAt(s, o.start).value; m == o || Outranks(m, o)
  {
  }

  /** If the pattern matches at `p` at all, the greedy attempt finds the
      match that outranks every other match at `p`. */
  lemma MatchAtBest(s: string, o: Match)
    requires IsMatch(s, o)
    ensures MatchAt(s, o.start).Some?
    ensures var m := MatchAt(s, o.start).value; m == o || Outranks(m, o)
  {
    MatchShape(s, o);
    GreedyDigits(s, o);
    var n2 := Run(s, o.StreamAt(), Digit);
    var q := o.StreamAt() + n2;
    SepInGreedyRun(s, o, q);
    GreedySepCovers(s, o, n2, q);
    GreedyWins(s, o, n2, GreedySep(s, o.start, o.inputDigits, n2).value);
  }

  lemma MatchAtBestAll(s: string, p: nat)
    ensures forall o :: IsMatch(s, o) && o.start == p ==>
      MatchAt(s, p).Some? && (MatchAt(s, p).value == o || Outranks(MatchAt(s, p).value, o))
  {
    forall o | IsMatch(s, o) && o.start == p
      ensures MatchAt(s, p).Some? && (MatchAt(s, p).value == o || Outranks(MatchAt(s, p).value, o))
    {
      MatchAtBest(s, o);
    }
  }

  /** Tries start positions from `from` rightwards: the reported match among
      those starting at `from` or later. */
  function FindMatch(s: string, from: nat): (r: Option<Match>)
    ensures r.Some? ==> from <= r.value.start && IsMatch(s, r.value)
    ensures r.Some? ==> forall o :: IsMatch(s, o) && from <= o.start && o != r.value ==> Outranks(r.value, o)
    ensures r.None? ==> forall o :: IsMatch(s, o) ==> o.start < from
    decreases |s| - from
  {
    if |s| <= from then None
    else
      MatchAtSound(s, from);
      MatchAtBestAll(s, from);
      match MatchAt(s, from)
      case Some(m) => Some(m)
      case None => FindMatch(s, from + 1)
  }

  /** The `onLog` codec extraction: the lower-cased capture group of the
      match JavaScript reports, or `None` (`null`) when the line does not
      match. */
  function ExtractCodec(line: string): (r: Option<string>)
    ensures r.None? <==> forall m :: !IsMatch(line, m)
    ensures r.Some? ==> exists m :: IsReported(line, m) && r.value == Lower(Capture(line, m))
    ensures r.Some? ==> |r.value| >= 1 && IsLower(r.value)
    ensures r.Some? ==> forall k :: 0 <= k < |r.value| ==> IsWordChar(r.value[k])
  {
    match FindMatch(line, 0)
    case None => None
    case Some(m) =>
      var c := Capture(line, m);
      LowerIsLower(c);
      LowerKeepsWordChars(c);
      assert IsReported(line, m);
      Some(Lower(c))
  }

  /** A match that starts the line, whose second `\d+` takes the whole digit
      run and whose `: word,` sits at the line's last colon is the reported
      one, so its word, lower-cased, is the codec. */
  lemma ReportedAtLastColon(s: string, m: Match)
    requires IsMatch(s, m) && m.start == 0
    requires m.streamDigits == Run(s, m.StreamAt(), Digit)
    requires forall k :: m.sepAt < k < |s| ==> s[k] != ':'
    ensures ExtractCodec(s) == Some(Lower(Capture(s, m)))
  {
    MatchAtBest(s, m);
    MatchAtSound(s, 0);
    var r := MatchAt(s, 0).value;
    MatchShape(s, r);
    MatchShape(s, m);
    assert r == m;
    assert FindMatch(s, 0) == Some(m);
  }

  /** The captured word must touch the comma: a line in which no comma
      directly follows a word character yields no codec, however many
      `Stream #i:j` headers and `: word` pieces it has. */
  lemma NoCodecWithoutWordComma(s: string)
    requires forall k :: 1 <= k < |s| && s[k] == ',' ==> !IsWordChar(s[k - 1])
    ensures ExtractCodec(s) == None
  {
    forall m | IsMatch(s, m)
      ensures false
    {
      WordBeforeComma(s, m.sepAt, m.codecLen);
    }
  }

  lemma WordBeforeComma(s: string, t: nat, w: nat)
    requires TailAt(s, t, w)
    ensures var k := t + 2 + w; 1 <= k < |s| && s[k] == ',' && IsWordChar(s[k - 1])
  {
  }
}

=== FILE: codec_examples.dfy ===
/**
  The log line quoted next to the `onLog` listener in
  `services/ffmpeg.service.ts`, run through the codec extraction.
 */
module CodecExamples {
  import opened Wrappers
  import opened Text
  import opened CodecLog

  const PngLine: string := "Stream #0:0: Video: png, rgba(pc), 1528x4693"

  /** The pattern matches the line at its start, `.*` stopping at the
      colon before `png`. */
  lemma PngLineMatches()
    ensures IsMatch(PngLine, Match(0, 1, 1, 18, 3))
  {
    PngLineHead();
    PngLineDigits();
    PngLineTail();
  }

  /* Character facts about `PngLine`, a few per lemma so that each stays
     cheap for the solver; `PngLineHead`, `PngLineDigits` and `PngLineTail`
     combine them. */

  lemma PngLineStream()
    ensures |PngLine| == 44
    ensures PngLine[0] == 'S' && PngLine[1] == 't' && PngLine[2] == 'r' && PngLine[3] == 'e'
  {
  }

  lemma PngLineHash()
    ensures PngLine[4] == 'a' && PngLine[5] == 'm' && PngLine[6] == ' ' && PngLine[7] == '#'
  {
  }

  lemma PngLineIndices()
    ensures PngLine[8] == '0' && PngLine[9] == ':' && PngLine[10] == '0' && PngLine[11] == ':'
  {
  }

  lemma PngLineSeparator()
    ensures PngLine[18] == ':' && PngLine[19] == ' '
  {
  }

  lemma PngLineCodecChars()
    ensures PngLine[20] == 'p' && PngLine[21] == 'n' && PngLine[22] == 'g' && PngLine[23] == ','
  {
  }

  lemma PngLineLastColon()
    ensures forall k :: 18 < k < |PngLine| ==> PngLine[k] != ':'
  {
  }

  lemma PngLineOneLine()
    ensures forall k :: 0 <= k < |PngLine| ==> !IsLineTerminator(PngLine[k])
  {
  }

  /** `Stream #` with a capital `S` at the start of a line matches the head. */
  lemma HeadSpelled(s: string)
    requires |s| >= 8
    requires s[0] == 'S' && s[1] == 't' && s[2] == 'r' && s[3] == 'e'
    requires s[4] == 'a' && s[5] == 'm' && s[6] == ' ' && s[7] == '#'
    ensures HeadAt(s, 0)
  {
    assert LowerChar('S') == 's';
  }

  lemma PngLineHead()
    ensures HeadAt(PngLine, 0)
  {
    PngLineStream();
    PngLineHash();
    HeadSpelled(PngLine);
  }

  lemma PngLineDigits()
    ensures DigitsAt(PngLine, 8, 1) && PngLine[9] == ':' && DigitsAt(PngLine, 10, 1)
    ensures !IsDigit(PngLine[11])
  {
    PngLineStream();
    PngLineIndices();
  }

  lemma PngLineTail()
    ensures forall k :: 11 <= k < 18 ==> IsLineChar(PngLine[k])
    ensures TailAt(PngLine, 18, 3)
    ensures forall k :: 18 < k < |PngLine| ==> PngLine[k] != ':'
  {
    PngLineStream();
    PngLineIndices();
    PngLineSeparator();
    PngLineCodecChars();
    PngLineLastColon();
    PngLineOneLine();
  }

  lemma PngLineWord()
    ensures IsMatch(PngLine, Match(0, 1, 1, 18, 3))
    ensures Capture(PngLine, Match(0, 1, 1, 18, 3)) == "png"
  {
    PngLineMatches();
    var w := PngLine[20..23];
    assert PngLine[20] == 'p' && PngLine[21] == 'n' && PngLine[22] == 'g';
    assert w[0] == PngLine[20] && w[1] == PngLine[21] && w[2] == PngLine[22];
  }

  lemma PngIsLower()
    ensures Lower("png") == "png"
  {
    LowerOfLower("png");
  }

  /** The documented example line yields the codec `png`. */
  lemma PngLineCodec()
    ensures ExtractCodec(PngLine) == Some("png")
  {
    var m := Match(0, 1, 1, 18, 3);
    PngLineMatches();
    PngLineDigits();
    PngLineTail();
    RunStops(PngLine, 10, Digit, 1);
    ReportedAtLastColon(PngLine, m);
    PngLineWord();
    PngIsLower();
  }

  /** A stream line whose codec name is followed by a profile in
      parentheses: the pattern needs a comma right after the word, so this
      line yields nothing and the probe settles on how `exec` ends. */
  const ProfileLine: string := "Stream #0:0: Video: h264 (High), yuv420p"

  /** The line's only comma follows a `)`, which is not a word character. */
  lemma ProfileLineComma()
    ensures forall k :: 0 <= k < |ProfileLine| && ProfileLine[k] == ',' ==> k == 31
    ensures ProfileLine[30] == ')'
  {
  }

  /** No codec is reported for the profiled line. */
  lemma ProfileLineCodec()
    ensures ExtractCodec(ProfileLine) == None
  {
    ProfileLineComma();
    NoCodecWithoutWordComma(ProfileLine);
  }
}

=== FILE: engine.dfy ===
/**
  The engine lifecycle of `services/ffmpeg.service.ts`: `loadFFmpeg`, which
  sets the module-level engine handle once, and `loadFile`, which probes a
  file by running the engine on it and listening to its log.

  The engine itself is not modelled. What it does is given as parameters:
  whether `load` succeeds, whether fetching the file's bytes succeeds,
  whether `writeFile` succeeds, the log lines it emits while `exec` runs,
  and how `exec` ends. What the service does with the engine is
  recorded as a trace of `EngineCall`s.
 */
module Engine {
  import opened Wrappers
  import CodecLog

  /** `models/file.model.ts`. The `data` field (a browser `File`) is not
      part of this model: only its name reaches the engine here. */
  datatype FileModel = FileModel(
    name: string,
    nameTruncated: string,
    sizeBytes: int,
    converted: bool,
    converting: bool,
    convertProgress: int,
    targetType: string)

  /** The module-level `ffmpeg` variable: `null`, or an engine object whose
      one-time `load` succeeded or failed. */
  datatype Handle = Unset | Set(loaded: bool)

  /** What an awaited engine call does: complete, or throw. */
  datatype Step = Done | Failed(error: string)

  /** The calls the service makes on the engine, in order. */
  datatype EngineCall =
    | Construct
    | Load
    | WriteFile(name: string)
    | On
    | Exec(args: seq<string>)
    | Off

  /** `loadFFmpeg()`: the handle afterwards, the calls made, and whether the
      returned promise resolves. */
  datatype LoadRun = LoadRun(handle: Handle, calls: seq<EngineCall>, ok: bool)

  function LoadFFmpeg(h: Handle, loadSucceeds: bool): (r: LoadRun)
    ensures r.handle.Set?
    ensures h.Set? ==> r.handle == h && r.calls == [] && r.ok
    ensures h.Unset? ==> r.calls == [Construct, Load] && r.handle.loaded == loadSucceeds == r.ok
  {
    if h.Set? then LoadRun(h, [], true)
    else LoadRun(Set(loadSucceeds), [Construct, Load], loadSucceeds)
  }

  /** A second call changes nothing, whatever its own `load` would do. */
  lemma LoadIdempotent(h: Handle, first: bool, second: bool)
    ensures LoadFFmpeg(LoadFFmpeg(h, first).handle, second).handle == LoadFFmpeg(h, first).handle
    ensures LoadFFmpeg(LoadFFmpeg(h, first).handle, second).calls == []
  {
  }

  /** Calls made one after another, the i-th `load` succeeding or not as
      `outcomes[i]` says: the final handle and all calls made. */
  function LoadMany(h: Handle, outcomes: seq<bool>): (r: (Handle, seq<EngineCall>))
    decreases |outcomes|
  {
    if outcomes == [] then (h, [])
    else
      var first := LoadFFmpeg(h, outcomes[0]);
      var rest := LoadMany(first.handle, outcomes[1..]);
      (rest.0, first.calls + rest.1)
  }

  /** However many sequential calls are made, the engine is constructed and
      loaded at most once: exactly once if it was unset and some call is
      made, and then the handle keeps the first load's outcome. */
  lemma {:induction false} LoadManyConstructsOnce(h: Handle, outcomes: seq<bool>)
    ensures var r := LoadMany(h, outcomes);
      && multiset(r.1)[Construct] == multiset(r.1)[Load] == (if h.Unset? && outcomes != [] then 1 else 0)
      && (h.Set? ==> r.0 == h)
      && (h.Unset? && outcomes != [] ==> r.0 == Set(outcomes[0]))
    decreases |outcomes|
  {
    if outcomes != [] {
      var first := LoadFFmpeg(h, outcomes[0]);
      LoadManyConstructsOnce(first.handle, outcomes[1..]);
    }
  }

  /** As written, a failed first load is never retried: the handle was set
      before `load` ran, so a second call returns at once even though its
      load would succeed, and the engine stays unloaded. */
  lemma FailedLoadNeverRetried()
    ensures LoadMany(Unset, [false, true]).0 == Set(false)
    ensures LoadFFmpeg(LoadFFmpeg(Unset, false).handle, true).calls == []
  {
  }

  /** `loadFFmpeg` as its "already loaded" comment describes it: return early
      only when the engine is loaded, and leave the handle `null` when the
      load fails, so that the next call tries again. */
  function LoadFFmpegRetrying(h: Handle, loadSucceeds: bool): (r: LoadRun)
    ensures h == Set(true) ==> r == LoadRun(h, [], true)
    ensures h != Set(true) ==> r.calls == [Construct, Load] && r.ok == loadSucceeds
    ensures r.handle == Set(true) || r.handle == Unset
  {
    if h == Set(true) then LoadRun(h, [], true)
    else LoadRun(if loadSucceeds then Set(true) else Unset, [Construct, Load], loadSucceeds)
  }

  function LoadManyRetrying(h: Handle, outcomes: seq<bool>): (r: (Handle, seq<EngineCall>))
    decreases |outcomes|
  {
    if outcomes == [] then (h, [])
    else
      var first := LoadFFmpegRetrying(h, outcomes[0]);
      var rest := LoadManyRetrying(first.handle, outcomes[1..]);
      (rest.0, first.calls + rest.1)
  }

  /** How many of the calls `outcomes` describes get as far as loading:
      all of them up to and including the first successful load. */
  function Attempts(outcomes: seq<bool>): (n: nat)
    ensures n <= |outcomes|
    ensures true !in outcomes ==> n == |outcomes|
    ensures true in outcomes ==> 1 <= n && outcomes[n - 1] && forall j :: 0 <= j < n - 1 ==> !outcomes[j]
    decreases |outcomes|
  {
    if outcomes == [] then 0
    else if outcomes[0] then 1
    else
      assert outcomes == [outcomes[0]] + outcomes[1..];
      1 + Attempts(outcomes[1..])
  }

  /** With retrying, a loaded engine makes later calls do nothing. */
  lemma {:induction false} RetryingLoadedStays(outcomes: seq<bool>)
    ensures LoadManyRetrying(Set(true), outcomes) == (Set(true), [])
    decreases |outcomes|
  {
    if outcomes != [] {
      RetryingLoadedStays(outcomes[1..]);
      assert LoadFFmpegRetrying(Set(true), outcomes[0]).calls == [];
      assert [] + LoadManyRetrying(Set(true), outcomes[1..]).1 == [];
    }
  }

  /** With retrying, a sequence of calls leaves the engine loaded exactly
      when it was loaded already or one of the loads succeeded, and from a
      null handle each call up to and including the first successful one
      makes one construction and one load. */
  lemma {:induction false} RetryingLoadsUntilSuccess(h: Handle, outcomes: seq<bool>)
    requires h != Set(false)
    ensures var r := LoadManyRetrying(h, outcomes);
      && (r.0 == Set(true) <==> h == Set(true) || true in outcomes)
      && (r.0 != Set(true) ==> r.0 == Unset)
      && (h == Set(true) ==> r.1 == [])
      && (h == Unset ==> multiset(r.1)[Construct] == multiset(r.1)[Load] == Attempts(outcomes))
    decreases |outcomes|
  {
    if outcomes != [] {
      var first := LoadFFmpegRetrying(h, outcomes[0]);
      RetryingLoadsUntilSuccess(first.handle, outcomes[1..]);
      if first.handle == Set(true) {
        RetryingLoadedStays(outcomes[1..]);
      }
      assert outcomes == [outcomes[0]] + outcomes[1..];
    }
  }

  /** The input that shows the difference: a failed load followed by a
      successful one leaves the engine loaded. */
  lemma RetryingRecoversFromFailedLoad()
    ensures LoadManyRetrying(Unset, [false, true]).0 == Set(true)
  {
  }

  /** The state of `loadFile`'s promise: pending, resolved with a codec or
      `null`, or rejected with the engine's error. */
  datatype Settled = Pending | Resolved(codec: Option<string>) | Rejected(error: string)

  /** A promise settles once: later `resolve`/`reject` calls are ignored. */
  function Settle(current: Settled, next: Settled): (r: Settled)
    ensures current.Pending? ==> r == next
    ensures !current.Pending? ==> r == current
  {
    if current.Pending? then next else current
  }

  /** The probe while `exec` runs: whether the `onLog` listener is still
      registered, the promise's state, and the calls made so far. */
  datatype Probe = Probe(listening: bool, outcome: Settled, calls: seq<EngineCall>)

  /** The `onLog` listener receiving one log line, given what the codec
      pattern finds in it (`CodecLog.ExtractCodec` of the line). A line with
      a codec removes the listener and resolves with the codec; once removed,
      the listener sees nothing. */
  function OnLog(p: Probe, found: Option<string>): (r: Probe)
    ensures !p.listening || found.None? ==> r == p
    ensures p.listening && found.Some? ==>
      && !r.listening
      && r.outcome == Settle(p.outcome, Resolved(found))
      && r.calls == p.calls + [Off]
  {
    if !p.listening then p
    else
      match found
      case None => p
      case Some(codec) => Probe(false, Settle(p.outcome, Resolved(Some(codec))), p.calls + [Off])
  }

  /** The log lines `exec` emits, delivered in order, each given as what
      the pattern finds in it. */
  function Feed(p: Probe, found: seq<Option<string>>): Probe
    decreases |found|
  {
    if found == [] then p else Feed(OnLog(p, found[0]), found[1..])
  }

  /** What the pattern finds in each line. */
  function Scan(lines: seq<string>): (r: seq<Option<string>>)
    ensures |r| == |lines|
    ensures forall j :: 0 <= j < |lines| ==> r[j] == CodecLog.ExtractCodec(lines[j])
  {
    seq(|lines|, j requires 0 <= j < |lines| => CodecLog.ExtractCodec(lines[j]))
  }

  /** After `exec` returns or throws: remove the listener, then resolve with
      `null` or reject with the error (ignored if already settled). */
  function Finish(p: Probe, exec: Step): (r: Probe)
    ensures !r.listening && !r.outcome.Pending?
    ensures !p.outcome.Pending? ==> r.outcome == p.outcome
    ensures p.outcome.Pending? ==> r.outcome == (if exec.Done? then Resolved(None) else Rejected(exec.error))
    ensures r.calls == p.calls + [Off]
  {
    var next := if exec.Done? then Resolved(None) else Rejected(exec.error);
    Probe(false, Settle(p.outcome, next), p.calls + [Off])
  }

  /** `-i <name>`: the probe command. */
  function ProbeArgs(name: string): seq<string> {
    ["-i", name]
  }

  /** The probe right after `ffmpeg.on("log", onLog)` and the start of
      `exec`. */
  function Start(name: string): Probe {
    Probe(true, Pending, [On, Exec(ProbeArgs(name))])
  }

  /** The promise part of `loadFile`: register the listener, run the probe
      command, deliver its log, and finish. */
  function RunProbe(name: string, lines: seq<string>, exec: Step): (r: Probe)
    ensures !r.listening && !r.outcome.Pending?
    ensures |r.calls| >= 3 && r.calls[0] == On && r.calls[1] == Exec(ProbeArgs(name))
    ensures forall i :: 2 <= i < |r.calls| ==> r.calls[i] == Off
  {
    FeedAddsOnlyOffs(Start(name), Scan(lines));
    Finish(Feed(Start(name), Scan(lines)), exec)
  }

  /** `loadFile(file)`: the promise's final state and the calls made. */
  datatype LoadFileRun = LoadFileRun(outcome: Settled, calls: seq<EngineCall>)

  /** Whether the listener is registered after `calls`: the last `On` or
      `Off` decides. */
  function Registered(calls: seq<EngineCall>): bool
    decreases |calls|
  {
    if calls == [] then false
    else if calls[|calls| - 1] == On then true
    else if calls[|calls| - 1] == Off then false
    else Registered(calls[..|calls| - 1])
  }

  /** `loadFile(file)`. The file's bytes are fetched before `writeFile` is
      called (its argument is awaited first), so a failed fetch rejects with
      no engine call; a failed write rejects after the one `writeFile` call. */
  function LoadFile(h: Handle, file: FileModel, fetch: Step, write: Step, lines: seq<string>, exec: Step): (r: LoadFileRun)
    ensures h.Unset? ==> r == LoadFileRun(Resolved(None), [])
    ensures h.Set? && fetch.Failed? ==> r == LoadFileRun(Rejected(fetch.error), [])
    ensures h.Set? && fetch.Done? ==> |r.calls| >= 1 && r.calls[0] == WriteFile(file.name)
    ensures h.Set? && fetch.Done? && write.Failed? ==> r == LoadFileRun(Rejected(write.error), [WriteFile(file.name)])
    ensures !r.outcome.Pending?
    ensures !Registered(r.calls)
    ensures h.Set? && fetch.Done? && write.Done? ==>
      && |r.calls| >= 4 && r.calls[1] == On && r.calls[2] == Exec(ProbeArgs(file.name))
      && forall k :: 3 <= k < |r.calls| ==> r.calls[k] == Off
  {
    if h.Unset? then LoadFileRun(Resolved(None), [])
    else if fetch.Failed? then LoadFileRun(Rejected(fetch.error), [])
    else if write.Failed? then LoadFileRun(Rejected(write.error), [WriteFile(file.name)])
    else
      var p := RunProbe(file.name, lines, exec);
      ProbeCalls(file.name, lines, exec);
      LoadFileRun(p.outcome, [WriteFile(file.name)] + p.calls)
  }

  /** The calls of one probe: `On`, `Exec`, then only `Off`s, the last call
      being an `Off`. */
  lemma ProbeCalls(name: string, lines: seq<string>, exec: Step)
    ensures var c := RunProbe(name, lines, exec).calls;
      && |c| >= 3 && c[0] == On && c[1] == Exec(ProbeArgs(name)) && c[|c| - 1] == Off
      && forall i :: 2 <= i < |c| ==> c[i] == Off
  {
    FeedAddsOnlyOffs(Start(name), Scan(lines));
  }

  lemma {:induction false} FeedAddsOnlyOffs(p: Probe, found: seq<Option<string>>)
    ensures var q := Feed(p, found);
      && |q.calls| >= |p.calls| && q.calls[..|p.calls|] == p.calls
      && forall i :: |p.calls| <= i < |q.calls| ==> q.calls[i] == Off
    decreases |found|
  {
    if found != [] {
      var p' := OnLog(p, found[0]);
      FeedAddsOnlyOffs(p', found[1..]);
      var q := Feed(p', found[1..]);
      assert q.calls[..|p'.calls|] == p'.calls;
      assert q.calls[..|p.calls|] == p'.calls[..|p.calls|];
    }
  }

  /** While the log is delivered the listener is registered exactly as long
      as the promise is pending. */
  lemma {:induction false} FeedKeepsListening(p: Probe, found: seq<Option<string>>)
    requires p.listening <==> p.outcome.Pending?
    ensures var q := Feed(p, found); q.listening <==> q.outcome.Pending?
    decreases |found|
  {
    if found != [] {
      FeedKeepsListening(OnLog(p, found[0]), found[1..]);
    }
  }

  /** Once the listener is gone, further lines change nothing. */
  lemma {:induction false} FeedAfterRemoval(p: Probe, found: seq<Option<string>>)
    requires !p.listening
    ensures Feed(p, found) == p
    decreases |found|
  {
    if found != [] {
      FeedAfterRemoval(OnLog(p, found[0]), found[1..]);
    }
  }

  /** Lines without a codec leave the probe as it was. */
  lemma {:induction false} FeedSilent(p: Probe, found: seq<Option<string>>)
    requires forall j :: 0 <= j < |found| ==> found[j].None?
    ensures Feed(p, found) == p
    decreases |found|
  {
    if found != [] {
      FeedSilent(OnLog(p, found[0]), found[1..]);
    }
  }

  /** A listening probe fed lines up to and including the first with a
      codec resolves with that codec, and the remaining lines are ignored. */
  lemma {:induction false} FeedFirstFound(p: Probe, found: seq<Option<string>>, i: nat)
    requires p.listening && p.outcome.Pending?
    requires i < |found| && found[i].Some?
    requires forall j :: 0 <= j < i ==> found[j].None?
    ensures Feed(p, found).outcome == Resolved(found[i])
    ensures !Feed(p, found).listening
    decreases i
  {
    var p' := OnLog(p, found[0]);
    if i == 0 {
      FeedAfterRemoval(p', found[1..]);
    } else {
      FeedFirstFound(p', found[1..], i - 1);
    }
  }

  /** The probe resolves with the codec of the first line that has one,
      whatever follows it and however `exec` ends. */
  lemma FirstMatchWins(name: string, lines: seq<string>, exec: Step, i: nat)
    requires i < |lines|
    requires CodecLog.ExtractCodec(lines[i]).Some?
    requires forall j :: 0 <= j < i ==> CodecLog.ExtractCodec(lines[j]).None?
    ensures RunProbe(name, lines, exec).outcome == Resolved(CodecLog.ExtractCodec(lines[i]))
  {
    FeedFirstFound(Start(name), Scan(lines), i);
  }

  /** With no line carrying a codec, the outcome is how `exec` ended:
      `null` when it returned, its error when it threw. */
  lemma NoMatchFallsThrough(name: string, lines: seq<string>, exec: Step)
    requires forall j :: 0 <= j < |lines| ==> CodecLog.ExtractCodec(lines[j]).None?
    ensures exec.Done? ==> RunProbe(name, lines, exec).outcome == Resolved(None)
    ensures exec.Failed? ==> RunProbe(name, lines, exec).outcome == Rejected(exec.error)
  {
    FeedSilent(Start(name), Scan(lines));
  }

  /** The first line, at or before `i`, that carries a codec. */
  lemma {:induction false} FirstCodecLine(lines: seq<string>, i: nat) returns (k: nat)
    requires i < |lines| && CodecLog.ExtractCodec(lines[i]).Some?
    ensures k <= i && CodecLog.ExtractCodec(lines[k]).Some?
    ensures forall j :: 0 <= j < k ==> CodecLog.ExtractCodec(lines[j]).None?
    decreases i
  {
    if j :| 0 <= j < i && CodecLog.ExtractCodec(lines[j]).Some? {
      k := FirstCodecLine(lines, j);
    } else {
      k := i;
    }
  }

  /** Lines after a detected codec do not change the outcome. */
  lemma LaterLinesIgnored(name: string, lines: seq<string>, more: seq<string>, exec: Step, i: nat)
    requires i < |lines| && CodecLog.ExtractCodec(lines[i]).Some?
    ensures RunProbe(name, lines + more, exec).outcome == RunProbe(name, lines, exec).outcome
  {
    var k := FirstCodecLine(lines, i);
    FirstMatchWins(name, lines, exec, k);
    var all := Scan(lines + more);
    forall j | 0 <= j <= k
      ensures all[j] == CodecLog.ExtractCodec(lines[j])
    {
      assert (lines + more)[j] == lines[j];
    }
    FeedFirstFound(Start(name), all, k);
  }

  /** `loadFile` on a set handle whose file fetch and write succeed resolves with the
      first detected codec; failing that it settles as `exec` ended. */
  lemma LoadFileOutcome(h: Handle, file: FileModel, lines: seq<string>, exec: Step, i: nat)
    requires h.Set?
    requires i <= |lines|
    requires forall j :: 0 <= j < i ==> CodecLog.ExtractCodec(lines[j]).None?
    requires i < |lines| ==> CodecLog.ExtractCodec(lines[i]).Some?
    ensures i < |lines| ==> LoadFile(h, file, Done, Done, lines, exec).outcome == Resolved(CodecLog.ExtractCodec(lines[i]))
    ensures i == |lines| && exec.Done? ==> LoadFile(h, file, Done, Done, lines, exec).outcome == Resolved(None)
    ensures i == |lines| && exec.Failed? ==> LoadFile(h, file, Done, Done, lines, exec).outcome == Rejected(exec.error)
  {
    if i < |lines| {
      FirstMatchWins(file.name, lines, exec, i);
    } else {
      NoMatchFallsThrough(file.name, lines, exec);
    }
  }
}

=== FILE: text.dfy ===
/**
  Character classes and the lower-casing used by the service.

  `Lower` models JavaScript's `String.prototype.toLowerCase` as far as the
  service can observe it: every string the service compares a lowered value
  with is plain lower-case ASCII, and the only characters whose lower-case
  form is pure ASCII are `A`..`Z` and U+212A KELVIN SIGN (which lowers to
  `k`). All other characters are left as they are.
 */
module Text {

  /** `\d` of a JavaScript regular expression (no `u` flag). */
  predicate IsDigit(c: char) {
    '0' <= c <= '9'
  }

  /** `\w` of a JavaScript regular expression, with or without the `i` flag
      (without the `u` flag): `[A-Za-z0-9_]`. */
  predicate IsWordChar(c: char) {
    'a' <= c <= 'z' || 'A' <= c <= 'Z' || IsDigit(c) || c == '_'
  }

  /** The characters `.` of a JavaScript regular expression does not match. */
  predicate IsLineTerminator(c: char) {
    c == '\n' || c == '\r' || c == '\U{2028}' || c == '\U{2029}'
  }

  predicate IsLineChar(c: char) {
    !IsLineTerminator(c)
  }

  predicate IsUpperAscii(c: char) {
    'A' <= c <= 'Z'
  }

  const Kelvin: char := '\U{212A}'

  function LowerChar(c: char): (r: char)
    ensures IsUpperAscii(c) ==> 'a' <= r <= 'z' && r as int == c as int + 32
    ensures c == Kelvin ==> r == 'k'
    ensures !IsUpperAscii(c) && c != Kelvin ==> r == c
    ensures !IsUpperAscii(r) && r != Kelvin
  {
    if IsUpperAscii(c) then (c as int + 32) as char
    else if c == Kelvin then 'k'
    else c
  }

  /** `s.toLowerCase()`, character by character. */
  function Lower(s: string): (r: string)
    ensures |r| == |s|
    ensures forall i :: 0 <= i < |s| ==> r[i] == LowerChar(s[i])
  {
    seq(|s|, i requires 0 <= i < |s| => LowerChar(s[i]))
  }

  /** A string with nothing left for `Lower` to change. */
  predicate IsLower(s: string) {
    forall i :: 0 <= i < |s| ==> !IsUpperAscii(s[i]) && s[i] != Kelvin
  }

  lemma LowerIsLower(s: string)
    ensures IsLower(Lower(s))
  {
  }

  /** Lower-casing a lower-case string changes nothing, so lower-casing twice
      is lower-casing once. */
  lemma LowerOfLower(s: string)
    requires IsLower(s)
    ensures Lower(s) == s
  {
  }

  lemma LowerIdempotent(s: string)
    ensures Lower(Lower(s)) == Lower(s)
  {
    LowerIsLower(s);
    LowerOfLower(Lower(s));
  }

  /** Lower-casing keeps word characters word characters. */
  lemma LowerKeepsWordChars(s: string)
    requires forall i :: 0 <= i < |s| ==> IsWordChar(s[i])
    ensures forall i :: 0 <= i < |Lower(s)| ==> IsWordChar(Lower(s)[i])
  {
  }

  /** The character classes the codec pattern repeats. */
  datatype CharClass = Digit | Word | LineChar

  predicate InClass(k: CharClass, c: char) {
    match k
    case Digit => IsDigit(c)
    case Word => IsWordChar(c)
    case LineChar => IsLineChar(c)
  }

  /** Length of the longest run of characters of class `P` starting at `i`:
      what a greedy `P+` or `P*` consumes before it backtracks. */
  function Run(s: string, i: nat, P: CharClass): (n: nat)
    requires i <= |s|
    ensures i + n <= |s|
    ensures forall k :: i <= k < i + n ==> InClass(P, s[k])
    ensures i + n == |s| || !InClass(P, s[i + n])
    decreases |s| - i
  {
    if i < |s| && InClass(P, s[i]) then 1 + Run(s, i + 1, P) else 0
  }

  /** A run of `n` characters satisfying `P` is covered by the greedy run. */
  lemma {:induction false} RunCovers(s: string, i: nat, P: CharClass, n: nat)
    requires i + n <= |s|
    requires forall k :: i <= k < i + n ==> InClass(P, s[k])
    ensures n <= Run(s, i, P)
    decreases n
  {
    if n > 0 {
      assert InClass(P, s[i]);
      RunCovers(s, i + 1, P, n - 1);
    }
  }

  /** The greedy run stops at the first character failing `P`. */
  lemma {:induction false} RunStops(s: string, i: nat, P: CharClass, n: nat)
    requires i + n < |s|
    requires !InClass(P, s[i + n])
    ensures Run(s, i, P) <= n
    decreases n
  {
    if n > 0 && InClass(P, s[i]) {
      RunStops(s, i + 1, P, n - 1);
    }
  }
}

=== FILE: wrappers.dfy ===
/** The optional-value datatype used where the service returns `string | null`. */
module Wrappers {

  /** `None` plays the part of JavaScript's `null`. */
  datatype Option<+T> = None | Some(value: T)
}
